=== FILE: README.md ===
# DepEd portal: role and access policy in Dafny

This project models the core policy of a small document portal for a government
education office. The portal has three kinds of record: schools, user accounts and
uploaded memos. A user carries four role flags: Superadmin, DepEd Secretary, School
Head and Employee. The model covers:

- `User.save`: the username defaults to the e-mail, and the role flags become mutually
  exclusive with priority admin > secretary > head > employee.
- The role and access queries: `get_role`, `is_school_staff`, `has_school_access` and
  `display_name`.
- The two regular-expression validators: school codes and Philippine mobile numbers.
- The backfill in `Document.save`, which copies the uploader's school onto a memo.
- The login decision and the dashboard selector.
- The two role-guarded dashboards, with their memo listing and titles.
- The employee profile update.
- The employee self-registration form: field cleaning, the case-insensitive
  duplicate-e-mail check, the password confirmation, and the save that forces the
  employee role.

Records are immutable datatypes and operations are pure functions. The user store is
a sequence of users.

Modules:

- `Types`: `Option` and dictionary lookup.
- `Text`: ASCII upper- and lower-casing and `str.strip`.
- `Emails`: `normalize_email`, the second of the two steps the user model's `clean`
  applies to the e-mail while a form validates.
- `Validators`: the school-code and mobile-number patterns.
- `Accounts`: the records, role normalisation, the role and access queries, and
  document backfill.
- `Dashboards`: dispatch, guards, the listing order, titles, and redirect following.
- `Sessions`: the login decision.
- `Profile`: the profile POST.
- `Registration`: the registration form and the store.

Each role is modelled two ways. `Priority` with `Holds` is an independent reference
definition of "the highest-priority flag that is set". `FlagsOf` is the single-enum
encoding of a role. `RoleOf`, `Normalize` and the dispatcher are proved against both
(`Dashboards.DispatchFollowsEncoding` for the dispatcher).

Points where the behaviour of the code is easy to misread, and which the model follows as written:

- Both dashboards list every document, including inactive ones and those of other schools.
- A registration stores the e-mail normalised. The user model inherits `clean` from
  Django's `AbstractUser`, and the form runs it during validation. `clean` applies two
  steps: first NFKC normalisation of the e-mail (the `USERNAME_FIELD`), then
  `normalize_email`, which lower-cases the domain after the last '@'. The model covers
  the second step only. The duplicate check, which runs earlier, compares the stripped
  input ignoring case.
- Django's `CharField` rejects NUL characters in the e-mail, full name and password fields.
- The profile POST writes `None` for an absent key instead of keeping the stored value.
  This is recorded under Findings.
- With Django's default authentication backend, an inactive account never reaches the
  "Account disabled" branch. That backend already refuses inactive users, so they get
  the generic credentials message (`Sessions.DisabledMessageNeedsPermissiveBackend`).
  The deployment's backend settings are not part of this model.

Parameters stand in for collaborators:

- `authenticate` is a function argument (`Sessions.Authenticator`).
- E-mail syntax checking is a predicate argument (`wellFormed`).
- The database is a sequence of users, a sequence of schools and a sequence of documents.

## Model

| member | source | states |
|---|---|---|
| Validators.SchoolCodeValid | documents/models.py:9-13 | a school code matches exactly when it is non-empty and every character is an upper-case letter, digit or hyphen |
| Validators.SchoolCodeIsUpperCase | documents/models.py:12 | a valid school code contains no lower-case letter, as the validator's message says: upper-casing leaves it unchanged |
| Validators.DigitsOnly | documents/models.py:58 | the `[0-9]` run accepts exactly the all-digit strings |
| Validators.ContactNumberValid | documents/models.py:55-59 | an accepted contact number has 12 or 13 characters, all digits except a possible leading plus |
| Validators.ContactNumberShape | documents/models.py:58 | the contact pattern accepts exactly an optional plus, then "63", then ten digits, in both directions |
| Accounts.ParseGender | documents/models.py:41-46 | only "Male" and "Female" are accepted, and the parsed choice prints back as the input |
| Accounts.GenderRoundTrip | documents/models.py:43 | every gender choice parses back from its label |
| Accounts.RoleOf | documents/models.py:88-96 | the resolved role is a held flag, or Employee; no held flag has higher priority |
| Accounts.GetRole | documents/models.py:88-96 | each of the four labels is returned exactly under its priority condition; "Employee" exactly when no elevated flag is set |
| Accounts.LabelInjective | documents/models.py:90-96 | distinct roles have distinct labels |
| Accounts.Normalize | documents/models.py:75-84 | admin is never changed; afterwards a role is held exactly when it was held before and is the resolved role |
| Accounts.NormalizeExclusive | documents/models.py:75-84 | after normalisation at most one flag is set, and the resolved role is unchanged |
| Accounts.NormalizeKeepsPlainFlags | documents/models.py:80-84 | with no elevated flag, all four flags are left as they were, so employee may stay false |
| Accounts.NormalizeIdempotent | documents/models.py:76-84 | normalising twice equals normalising once |
| Accounts.FlagsOf | documents/models.py:34-38 | the flag encoding of a role holds that role and no other |
| Accounts.NormalizeIsCanonical | documents/models.py:75-96 | decoding the encoding of a role gives it back; normalised flags equal the encoding of the resolved role exactly when some flag was set |
| Accounts.SaveUser | documents/models.py:70-86 | the username becomes the e-mail only when the e-mail is non-empty and the username empty; flags are normalised; nothing else changes |
| Accounts.SaveUserIdempotent | documents/models.py:70-86 | saving a user twice equals saving once |
| Accounts.SaveUserKeepsRole | documents/models.py:75-96 | a saved user holds at most one role, and `get_role` gives the same answer before and after the save |
| Accounts.SchoolPk | documents/models.py:47-53 | the user's school key is present exactly when a school is assigned, and it is that school's key |
| Accounts.IsSchoolStaff | documents/models.py:98-100 | staff exactly when a school is assigned and that school is active |
| Accounts.HasSchoolAccess | documents/models.py:102-106 | admin and secretary always have access; anyone else has access exactly when their optional school key equals the argument |
| Accounts.UnrestrictedAccessIsCentral | documents/models.py:102-106 | access to every possible school holds exactly for the Superadmin and DepEd Secretary roles |
| Accounts.StaffAccessIsOwnSchool | documents/models.py:98-106 | active school staff outside the central office have access exactly to their own school |
| Accounts.SaveUserKeepsAccess | documents/models.py:70-106 | saving never changes school access or staff status |
| Accounts.DisplayName | documents/models.py:108-110 | the display name is a non-empty full name when there is one, else the e-mail |
| Accounts.SaveDocument | documents/models.py:139-144 | a set school is kept; an unset school takes the uploader's school, or stays null; nothing else changes |
| Accounts.SaveDocumentIdempotent | documents/models.py:139-144 | saving a document twice equals saving once |
| Accounts.BackfilledDocumentVisibleToUploader | documents/models.py:139-144 | an uploader always has access to a document whose school was backfilled |
| Dashboards.DashboardSelector | documents/views.py:82-90 | the selector never targets itself; it targets the central dashboard exactly for Superadmin and Secretary, the school dashboard exactly for School Head, and the profile exactly for Employee |
| Dashboards.DispatchAgreesWithGetRole | documents/views.py:85-90 | dispatch and the `get_role` labels agree in both directions |
| Dashboards.DispatchFollowsEncoding | documents/views.py:82-90 | a user holding exactly one role, in the enum encoding, is sent to the central dashboard, the school dashboard or the profile exactly according to that role |
| Dashboards.InsertByDate | documents/views.py:100 | inserting into a newest-first list keeps it newest-first and adds exactly that document |
| Dashboards.OrderNewestFirst | documents/views.py:100 | the listing is ordered by upload date, newest first, and is a permutation of all documents |
| Dashboards.AdminDashboard | documents/views.py:95-105 | users failing the admin/secretary re-check are redirected to the selector; others see the central title and every document, newest first |
| Dashboards.SchoolPortalTitle | documents/views.py:115-120 | the title is "School Portal: " followed by the school name, or by "No School Assigned" |
| Dashboards.SchoolTitleDistinguishesNames | documents/views.py:116-120 | two assigned users get the same title exactly when their school names match; a school named "No School Assigned" looks unassigned |
| Dashboards.SchoolHeadDashboard | documents/views.py:108-122 | users failing the head re-check are redirected to the selector; others see the school title and every document, newest first |
| Dashboards.SelectorTargetPassesGuard | documents/views.py:85-111 | any user the selector sends to a dashboard passes that dashboard's guard |
| Dashboards.NoRedirectLoop | documents/views.py:82-122 | from any route, at most two redirects reach a rendered page |
| Dashboards.SelectorLandsOnRolePage | documents/views.py:82-90 | following the selector renders the central, school or profile page exactly for the matching resolved role |
| Dashboards.SchoolGuardExactAfterSave | documents/views.py:85-111 | for a saved user, each guard admits exactly the users the selector sends to it |
| Dashboards.SchoolGuardLooserBeforeSave | documents/views.py:85-111 | an unnormalised admin-and-head record passes the school guard although the selector sends it to the central dashboard |
| Sessions.LoginView | documents/views.py:13-34 | an existing session redirects; a GET shows the form; a POST signs in exactly an authenticated active user, shows "Account disabled" exactly for an authenticated inactive one, and shows the credentials error exactly when authentication fails |
| Sessions.DisabledMessageNeedsPermissiveBackend | documents/views.py:23-32 | if the backend returns only active users, the "Account disabled" message never appears |
| Sessions.SignInLandsOnRolePage | documents/views.py:25-28 | after a successful sign-in, the selector renders the page matching the user's `get_role` label |
| Profile.ProfilePostAsWritten | documents/views.py:128-134 | the five posted fields become their `.get` values, with `None` when absent; flags are normalised; the username becomes the e-mail only if it was empty; no other field changes |
| Profile.MissingKeyBreaksSave | documents/views.py:128-134 | posting without the address key nulls the stored address, so the record violates the NOT NULL columns |
| Profile.FieldOrKeep | documents/views.py:129-133 | the corrected per-field rule (the code writes `None` instead): a posted key gives its value, and an absent key keeps the current value |
| Profile.UpdateProfile | documents/views.py:128-134 | the corrected update keeps storable records storable; each of the five fields takes its posted value, or keeps its stored value when the key is absent, and an explicit empty string clears; flags are normalised; the username becomes the e-mail only if it was empty; no other field changes |
| Profile.UpdateProfileAgreesOnFullForm | documents/views.py:128-134 | when all five keys are posted, the corrected and as-written updates agree |
| Profile.ProfileStoresUncheckedContact | documents/views.py:128-134 | the profile POST as written stores a contact number that the field's validator would reject |
| Emails.NormalizeEmail | documents/models.py:26-31 | an address without '@' is returned as given; with one, the result has the stripped address's length and still contains '@' |
| Emails.NormalizeEmailShape | documents/models.py:26-31 | the local part and the last '@' are kept; the domain changes only in letter case and has no upper-case letter left |
| Emails.NormalizeEmailIgnoresCase | documents/models.py:26-31 | a normalised address equals the typed one ignoring case, so the case-insensitive duplicate check still finds it |
| Emails.NormalizeEmailIdempotent | documents/models.py:26-31 | normalising twice equals normalising once |
| Registration.EmailRegistered | documents/forms.py:75 | the store scan reports an address exactly when some stored user has it, ignoring case |
| Registration.CleanEmail | documents/forms.py:73-77 | the address is rejected as a duplicate exactly when some stored address equals it ignoring case; otherwise it is returned |
| Registration.CaseVariantIsDuplicate | documents/forms.py:73-77 | an address that differs from a stored one only in letter case is rejected |
| Registration.CleanEmailField | documents/forms.py:7-13 | the address is accepted exactly when, after stripping, it is non-empty, well-formed, free of NUL characters and unused, and then it is the stripped input; the required, syntax and duplicate errors each appear exactly under their own condition |
| Registration.CleanFullName | documents/forms.py:15-23 | the full name is accepted exactly when, after stripping, it is non-empty, at most 255 characters long and free of NUL characters; the required error appears exactly for a blank name, the length error exactly for one over 255 characters, and the NUL error exactly for a name that passes both but holds a NUL |
| Registration.CleanGender | documents/forms.py:25-32 | gender is accepted exactly for "Male" or "Female"; an absent or empty value gets the required error and any other value the invalid-choice error |
| Registration.FindSchool | documents/forms.py:34-42 | a school is found exactly when some stored school has the key, and the result is that school |
| Registration.CleanSchool | documents/forms.py:34-42 | the school choice is accepted exactly when a stored school has the posted key, active or not; a missing choice gets the required error and a key no stored school has the invalid-choice error |
| Registration.CleanPassword | documents/forms.py:44-60 | a password field is accepted exactly when it is present, non-empty and free of NUL characters, and it is not stripped; the required error appears exactly for a missing or empty value |
| Registration.CleanPassword2 | documents/forms.py:79-85 | a mismatch is reported exactly when both passwords are non-empty and differ; otherwise the confirmation is returned |
| Registration.Collect | documents/forms.py:62-85 | the form has no error exactly when every field cleans; an e-mail or confirmation error is listed exactly when that field was rejected with it |
| Registration.Validate | documents/forms.py:62-85 | the form is invalid exactly when some field error is reported, and an invalid form returns every field error |
| Registration.ValidFormGuarantees | documents/forms.py:62-85 | a valid form has a stripped, non-empty, well-formed and unused e-mail, a non-empty name, one of the two genders, a stored school, and equal non-empty passwords |
| Registration.ValidFormExactly | documents/forms.py:6-85 | the form is valid exactly when each of the six fields passes its own checks and the two passwords are equal, in both directions |
| Registration.DuplicateReportedIffInUse | documents/forms.py:73-77 | the duplicate-e-mail error appears exactly when a non-empty, well-formed address without NUL characters is already registered |
| Registration.MismatchReportedIffDifferent | documents/forms.py:79-85 | the mismatch error appears exactly when both passwords pass their own field checks and differ |
| Registration.RegistrationSave | documents/forms.py:87-100 | for any instance, the role becomes employee only; the e-mail is the normalised cleaned address and the username is set to it; full name, gender and school are copied; nothing else changes |
| Registration.RegistrationNeverElevates | documents/forms.py:96-103 | a registered user, after saving, is "Employee", is sent to the profile, and may access only the chosen school |
| Registration.Register | documents/views.py:59-68 | a user is created exactly when the form is valid; its e-mail and username are the normalised stripped input, which matches the typed address ignoring case and is unused; the new user's role is "Employee"; its full name is the stripped posted name, its gender the posted choice, its school the stored school with the posted key, and it is active (the assignments of `save` at documents/forms.py:90-94); otherwise the form's errors are returned |
| Registration.WelcomeUsesFullName | documents/views.py:64-67 | the display name of a saved registrant is the cleaned full name whenever that name is non-empty, as the form guarantees |
| Registration.Enroll | documents/views.py:59-68 | an accepted user is appended to the store, and a refused form leaves the store unchanged |
| Registration.AppendKeepsEmailUnique | documents/forms.py:73-77 | appending a user whose address is unused leaves exactly one stored user with that address, ignoring case |
| Registration.AcceptedAddressIsClean | documents/forms.py:7-13 | an accepted form had a non-empty, well-formed, NUL-free address, and the stored address matches it ignoring case |
| Registration.ResubmissionRefused | documents/forms.py:73-77 | a form whose clean address is already stored, ignoring case, is refused with the duplicate error |
| Registration.RegisterTwiceRefused | documents/forms.py:73-77 | after an accepted registration, the same form is refused as a duplicate, and the new user is the only stored user with that address |

## Left out

- Persistence: the ORM, database-level uniqueness, SET_NULL and CASCADE actions, and the
  check-then-insert race between concurrent registrations. The store is a sequence.
- `authenticate`, password hashing, Django's password-strength validators, sessions,
  `login` and `logout`, `@login_required`, message storage (including the message
  draining in the register view), rendering, redirects and templates. Only the
  decisions are modelled.
- File storage, the date-based upload path, the automatic timestamps, `views_count` and
  `last_login_ip`. The upload date is an integer supplied with each document.
- E-mail syntax checking. It is the predicate parameter `wellFormed`.
- The routing table and the admin-site registration. They hold no logic. The `.choices`
  module imported by the views is not part of this model.
- Validators.SchoolCodeValid: models the pattern as a whole-string match. Python's `$`
  also matches before one trailing newline. The 50-character limit on codes is not modelled.
- Validators.ContactNumberValid: the same whole-string reading. The 15-character field
  limit always holds for accepted numbers.
- Text.Strip, Text.Upper and Text.Lower handle ASCII only. Python strips and case-folds the whole of
  Unicode, and `email__iexact` depends on the database.
- Registration.CleanFullName: when several validators of one field fail, Django lists
  every message. The model keeps only the first failure, for example only the length
  error for a name that is also too long and contains NUL. The e-mail field is treated
  the same way.
- Registration.CleanEmailField: the e-mail length limits, 320 characters on the form
  and 254 on the model field, are part of `wellFormed`. Django checks the model's limit
  after `clean_email`, so for an over-long address that is also in use it reports the
  duplicate, while the model reports the syntax error.
- Registration.Register: the NFKC normalisation that `AbstractBaseUser.clean` applies to
  the e-mail before `normalize_email` is not modelled, because Unicode normalisation is
  outside this model. Neither is the exact-match uniqueness check on the normalised
  address that runs afterwards. So for an address that NFKC changes, such as one with
  full-width letters in the domain, the model can accept and store it where Django
  refuses it as already in use.
- Registration.RegistrationSave: the stored e-mail is `normalize_email` of the cleaned
  address, without the preceding NFKC step.
- Registration.CleanSchool: the posted school arrives as an already-parsed key. A
  non-numeric value is not modelled.
- The multi-valued `QueryDict`: each POST key carries one value.
- A concurrent duplicate registration that slips past the pre-check is left out with
  the store.

## Findings

| source | as written | input that shows it | evidently intended | confidence | as-written member | corrected member |
|---|---|---|---|---|---|---|
| documents/views.py:128-134 | each profile field is read with `.get`, so a key missing from the POST writes `None` into a NOT NULL column, and `save` then fails | a profile POST without the `address` key, for a user with a stored address | a missing key keeps the stored value; an explicit empty string clears it | medium, not executed | Profile.MissingKeyBreaksSave | Profile.UpdateProfile |

=== FILE: accounts.dfy ===
/** The data model: schools, users with four role flags, and uploaded documents,
    together with the role policy attached to the user record. */
module Accounts {
  import opened Types

  /** An organisational unit. `code` is the field named `school_id` in the data model
      (the string a code validator checks); `pk` is the row's primary key. */
  datatype School = School(pk: nat, name: string, code: string, isActive: bool)

  datatype Gender = Male | Female

  /** The four role columns of a user, in priority order. */
  datatype RoleFlags = RoleFlags(admin: bool, secretary: bool, head: bool, employee: bool)

  /** The role labels `get_role` can produce. */
  datatype Role = Superadmin | DepEdSecretary | SchoolHead | Employee

  /** A user account. Columns that the profile form can overwrite with `None` are
      `Option`s; `school` is the referenced school, if any. */
  datatype User = User(
    email: string,
    username: string,
    fullName: Option<string>,
    roles: RoleFlags,
    gender: Option<Gender>,
    school: Option<School>,
    firstName: Option<string>,
    lastName: Option<string>,
    position: Option<string>,
    contactNumber: Option<string>,
    address: Option<string>,
    isActive: bool)

  /** An uploaded memo. The file payload is left out; `dateUploaded` is a timestamp. */
  datatype Document = Document(
    title: string,
    uploadedBy: User,
    dateUploaded: int,
    isActive: bool,
    school: Option<School>)

  /** A freshly constructed user: every column at its declared default
      (`is_employee` defaults to true, the other role flags to false). */
  const NewUser := User(
    "", "", None, RoleFlags(false, false, false, true), None, None,
    Some(""), Some(""), Some(""), Some(""), Some(""), true)

  // ---------------------------------------------------------------------------
  // Gender choices

  function GenderLabel(g: Gender): string
  {
    match g
    case Male => "Male"
    case Female => "Female"
  }

  /** The choice list `[('Male', 'Male'), ('Female', 'Female')]`: exact string match. */
  function ParseGender(s: string): (g: Option<Gender>)
    ensures g.Some? <==> s == "Male" || s == "Female"
    ensures g.Some? ==> GenderLabel(g.value) == s
  {
    if s == "Male" then Some(Male)
    else if s == "Female" then Some(Female)
    else None
  }

  lemma GenderRoundTrip(g: Gender)
    ensures ParseGender(GenderLabel(g)) == Some(g)
  {
  }

  // ---------------------------------------------------------------------------
  // Roles

  /** Reference ordering of roles: a larger number wins. */
  function Priority(r: Role): nat
  {
    match r
    case Superadmin => 3
    case DepEdSecretary => 2
    case SchoolHead => 1
    case Employee => 0
  }

  /** The flag belonging to role `r` is set. */
  predicate Holds(f: RoleFlags, r: Role)
  {
    match r
    case Superadmin => f.admin
    case DepEdSecretary => f.secretary
    case SchoolHead => f.head
    case Employee => f.employee
  }

  /** No two roles are held at once. */
  predicate AtMostOneRole(f: RoleFlags)
  {
    forall q, q' :: Holds(f, q) && Holds(f, q') ==> q == q'
  }

  /** The display label of a role, as `get_role` spells it. */
  function Label(r: Role): string
  {
    match r
    case Superadmin => "Superadmin"
    case DepEdSecretary => "DepEd Secretary"
    case SchoolHead => "School Head"
    case Employee => "Employee"
  }

  lemma LabelInjective(r: Role, r': Role)
    ensures Label(r) == Label(r') <==> r == r'
  {
  }

  /** The resolved role: the highest-priority flag that is set, or Employee when none is. */
  function RoleOf(f: RoleFlags): (r: Role)
    ensures Holds(f, r) || r == Employee
    ensures forall q :: Holds(f, q) ==> Priority(q) <= Priority(r)
  {
    if f.admin then Superadmin
    else if f.secretary then DepEdSecretary
    else if f.head then SchoolHead
    else Employee
  }

  /** `get_role`: the label of the resolved role. */
  function GetRole(u: User): (shown: string)
    ensures shown == "Superadmin" <==> u.roles.admin
    ensures shown == "DepEd Secretary" <==> !u.roles.admin && u.roles.secretary
    ensures shown == "School Head" <==> !u.roles.admin && !u.roles.secretary && u.roles.head
    ensures shown == "Employee" <==> !u.roles.admin && !u.roles.secretary && !u.roles.head
  {
    Label(RoleOf(u.roles))
  }

  /** The role normalisation performed on every save. */
  function Normalize(f: RoleFlags): (n: RoleFlags)
    ensures n.admin == f.admin
    ensures forall q :: Holds(n, q) <==> Holds(f, q) && q == RoleOf(f)
  {
    if f.admin then RoleFlags(true, false, false, false)
    else if f.secretary then f.(head := false, employee := false)
    else if f.head then f.(employee := false)
    else f
  }

  /** After normalisation at most one role remains, and it is the one `RoleOf` resolved. */
  lemma NormalizeExclusive(f: RoleFlags)
    ensures AtMostOneRole(Normalize(f))
    ensures RoleOf(Normalize(f)) == RoleOf(f)
  {
  }

  /** Without an elevated flag nothing changes, so a user with no flag at all keeps none. */
  lemma NormalizeKeepsPlainFlags(f: RoleFlags)
    requires !f.admin && !f.secretary && !f.head
    ensures Normalize(f) == f
  {
    assert Holds(Normalize(f), Employee) <==> Holds(f, Employee);
  }

  lemma NormalizeIdempotent(f: RoleFlags)
    ensures Normalize(Normalize(f)) == Normalize(f)
  {
  }

  /** The single-enum view of a role: the flags that a user holding exactly `r` has. */
  function FlagsOf(r: Role): (f: RoleFlags)
    ensures forall q :: Holds(f, q) <==> q == r
  {
    RoleFlags(r == Superadmin, r == DepEdSecretary, r == SchoolHead, r == Employee)
  }

  /** The enum and the normalised flags carry the same information: decoding the encoding
      of a role gives it back, and normalising is encoding the resolved role, except for a
      record with no flag at all, which normalisation leaves empty. */
  lemma NormalizeIsCanonical(f: RoleFlags, r: Role)
    ensures RoleOf(FlagsOf(r)) == r
    ensures Normalize(FlagsOf(r)) == FlagsOf(r)
    ensures (f.admin || f.secretary || f.head || f.employee) <==> Normalize(f) == FlagsOf(RoleOf(f))
  {
    var n := Normalize(f);
    if f.admin || f.secretary || f.head || f.employee {
      assert Holds(f, RoleOf(f));
      assert Holds(n, Superadmin) == Holds(FlagsOf(RoleOf(f)), Superadmin);
      assert Holds(n, DepEdSecretary) == Holds(FlagsOf(RoleOf(f)), DepEdSecretary);
      assert Holds(n, SchoolHead) == Holds(FlagsOf(RoleOf(f)), SchoolHead);
      assert Holds(n, Employee) == Holds(FlagsOf(RoleOf(f)), Employee);
    } else {
      assert !Holds(n, RoleOf(f));
      assert Holds(FlagsOf(RoleOf(f)), RoleOf(f));
    }
  }

  // ---------------------------------------------------------------------------
  // User.save and the derived queries

  /** `User.save`: username defaults to the e-mail, then the role flags are normalised.
      Nothing else changes. */
  function SaveUser(u: User): (s: User)
    ensures u.email != "" && u.username == "" ==> s.username == u.email
    ensures s.username != u.username ==> u.username == "" && u.email != "" && s.username == u.email
    ensures s.roles == Normalize(u.roles)
    ensures s.(username := u.username, roles := u.roles) == u
  {
    var withName := if u.email != "" && u.username == "" then u.(username := u.email) else u;
    withName.(roles := Normalize(u.roles))
  }

  /** Saving twice is saving once. */
  lemma SaveUserIdempotent(u: User)
    ensures SaveUser(SaveUser(u)) == SaveUser(u)
  {
    NormalizeIdempotent(u.roles);
  }

  /** A saved user holds at most one role and keeps the label `get_role` gave it. */
  lemma SaveUserKeepsRole(u: User)
    ensures AtMostOneRole(SaveUser(u).roles)
    ensures GetRole(SaveUser(u)) == GetRole(u)
  {
    NormalizeExclusive(u.roles);
  }

  /** The primary key of the user's school (`user.school_id`), or `None`. */
  function SchoolPk(u: User): (pk: Option<nat>)
    ensures pk.Some? <==> u.school.Some?
    ensures pk.Some? ==> pk.value == u.school.value.pk
  {
    match u.school
    case Some(s) => Some(s.pk)
    case None => None
  }

  /** `is_school_staff`: assigned to a school that is active. */
  function IsSchoolStaff(u: User): (staff: bool)
    ensures staff <==> u.school.Some? && u.school.value.isActive
  {
    match u.school
    case Some(s) => s.isActive
    case None => false
  }

  /** `has_school_access`: central roles see every school; anyone else only the school
      whose key equals their own school key (so an unassigned user matches only `None`). */
  function HasSchoolAccess(u: User, target: Option<nat>): (ok: bool)
    ensures u.roles.admin || u.roles.secretary ==> ok
    ensures !u.roles.admin && !u.roles.secretary ==> (ok <==> SchoolPk(u) == target)
  {
    if u.roles.admin || u.roles.secretary then true
    else SchoolPk(u) == target
  }

  /** Access to every possible target is exactly the privilege of the two central roles. */
  lemma UnrestrictedAccessIsCentral(u: User)
    ensures (forall t :: HasSchoolAccess(u, t)) <==> RoleOf(u.roles) == Superadmin || RoleOf(u.roles) == DepEdSecretary
  {
    if RoleOf(u.roles) != Superadmin && RoleOf(u.roles) != DepEdSecretary {
      var other: Option<nat> := if SchoolPk(u).None? then Some(0) else None;
      assert !HasSchoolAccess(u, other);
    }
  }

  /** An active school staff member outside the central office sees exactly their school. */
  lemma StaffAccessIsOwnSchool(u: User, target: Option<nat>)
    requires IsSchoolStaff(u) && !u.roles.admin && !u.roles.secretary
    ensures HasSchoolAccess(u, target) <==> target == Some(u.school.value.pk)
  {
  }

  /** Saving a user never changes which schools it may access. */
  lemma SaveUserKeepsAccess(u: User, target: Option<nat>)
    ensures HasSchoolAccess(SaveUser(u), target) == HasSchoolAccess(u, target)
    ensures IsSchoolStaff(SaveUser(u)) == IsSchoolStaff(u)
  {
  }

  /** `display_name`: the full name when it is set and non-empty, else the e-mail. */
  function DisplayName(u: User): (name: string)
    ensures u.fullName.Some? && u.fullName.value != "" ==> name == u.fullName.value
    ensures u.fullName.None? || u.fullName.value == "" ==> name == u.email
  {
    match u.fullName
    case Some(n) => if n != "" then n else u.email
    case None => u.email
  }

  // ---------------------------------------------------------------------------
  // Document.save

  /** `Document.save`: a document without a school takes its uploader's school (which
      may itself be absent); a document with a school keeps it. Nothing else changes. */
  function SaveDocument(d: Document): (r: Document)
    ensures d.school.Some? ==> r.school == d.school
    ensures d.school.None? ==> r.school == d.uploadedBy.school
    ensures r.(school := d.school) == d
  {
    if d.school.None? && d.uploadedBy.school.Some? then d.(school := d.uploadedBy.school) else d
  }

  lemma SaveDocumentIdempotent(d: Document)
    ensures SaveDocument(SaveDocument(d)) == SaveDocument(d)
  {
  }

  /** A document whose school was filled in on save is always visible to its uploader. */
  lemma BackfilledDocumentVisibleToUploader(d: Document)
    requires d.school.None?
    ensures var r := SaveDocument(d);
            HasSchoolAccess(d.uploadedBy, if r.school.Some? then Some(r.school.value.pk) else None)
  {
  }
}

=== FILE: dashboards.dfy ===
/** Role dispatch after login: the dashboard selector, the two guarded dashboards,
    the employee profile page, and the listing of memos they show. */
module Dashboards {
  import opened Types
  import opened Accounts

  /** The named routes a signed-in user can be sent to. */
  datatype Target = Selector | CentralDashboard | SchoolDashboard | EmployeeProfile

  /** What a dashboard route renders. */
  datatype Page =
    | CentralPage(title: string, memos: seq<Document>)
    | SchoolPage(title: string, memos: seq<Document>)
    | ProfilePage(user: User)

  datatype Response = Redirect(to: Target) | Render(page: Page)

  /** `dashboard_selector`: central roles to the central dashboard, school heads to
      the school dashboard, everybody else to the profile. */
  function DashboardSelector(u: User): (t: Target)
    ensures t != Selector
    ensures t == CentralDashboard <==> RoleOf(u.roles) == Superadmin || RoleOf(u.roles) == DepEdSecretary
    ensures t == SchoolDashboard <==> RoleOf(u.roles) == SchoolHead
    ensures t == EmployeeProfile <==> RoleOf(u.roles) == Employee
  {
    if u.roles.admin || u.roles.secretary then CentralDashboard
    else if u.roles.head then SchoolDashboard
    else EmployeeProfile
  }

  /** Dispatch reads the same labels `get_role` shows. */
  lemma DispatchAgreesWithGetRole(u: User)
    ensures DashboardSelector(u) == CentralDashboard <==> GetRole(u) == "Superadmin" || GetRole(u) == "DepEd Secretary"
    ensures DashboardSelector(u) == SchoolDashboard <==> GetRole(u) == "School Head"
    ensures DashboardSelector(u) == EmployeeProfile <==> GetRole(u) == "Employee"
  {
  }

  /** Dispatch on the single-enum encoding of a role sends each role to its own page. */
  lemma DispatchFollowsEncoding(u: User, r: Role)
    ensures var t := DashboardSelector(u.(roles := FlagsOf(r)));
            && (t == CentralDashboard <==> r == Superadmin || r == DepEdSecretary)
            && (t == SchoolDashboard <==> r == SchoolHead)
            && (t == EmployeeProfile <==> r == Employee)
  {
    NormalizeIsCanonical(FlagsOf(r), r);
  }

  // ---------------------------------------------------------------------------
  // Memo listing, newest first

  ghost predicate NewestFirst(memos: seq<Document>)
  {
    forall i, j :: 0 <= i < j < |memos| ==> memos[i].dateUploaded >= memos[j].dateUploaded
  }

  function InsertByDate(d: Document, memos: seq<Document>): (r: seq<Document>)
    requires NewestFirst(memos)
    ensures NewestFirst(r)
    ensures multiset(r) == multiset(memos) + multiset{d}
  {
    if memos == [] || d.dateUploaded >= memos[0].dateUploaded then [d] + memos
    else
      var rest := InsertByDate(d, memos[1..]);
      assert memos == [memos[0]] + memos[1..];
      HeadDominates(memos[0], d, memos[1..], rest);
      [memos[0]] + rest
  }

  /** A document no older than every element of `tail` and than `d` may head any
      arrangement of `tail` with `d` added. */
  lemma HeadDominates(h: Document, d: Document, tail: seq<Document>, rest: seq<Document>)
    requires NewestFirst([h] + tail)
    requires d.dateUploaded < h.dateUploaded
    requires NewestFirst(rest)
    requires multiset(rest) == multiset(tail) + multiset{d}
    ensures NewestFirst([h] + rest)
  {
    forall k | 0 <= k < |rest|
      ensures rest[k].dateUploaded <= h.dateUploaded
    {
      assert rest[k] in multiset(rest);
      if rest[k] != d {
        assert rest[k] in multiset(tail);
        var j :| 0 <= j < |tail| && tail[j] == rest[k];
        assert ([h] + tail)[0] == h && ([h] + tail)[j + 1] == tail[j];
      }
    }
    forall i, j | 0 <= i < j < |[h] + rest|
      ensures ([h] + rest)[i].dateUploaded >= ([h] + rest)[j].dateUploaded
    {
      if i > 0 {
        assert ([h] + rest)[i] == rest[i - 1];
      }
      assert ([h] + rest)[j] == rest[j - 1];
    }
  }

  /** `Document.objects.all().order_by('-date_uploaded')`: every document, newest first.
      The order among documents uploaded at the same instant is left open, as the
      database leaves it. */
  function OrderNewestFirst(docs: seq<Document>): (r: seq<Document>)
    ensures NewestFirst(r)
    ensures multiset(r) == multiset(docs)
  {
    if docs == [] then []
    else
      assert docs == [docs[0]] + docs[1..];
      InsertByDate(docs[0], OrderNewestFirst(docs[1..]))
  }

  // ---------------------------------------------------------------------------
  // Guarded dashboards

  const CentralTitle := "DepEd Central Dashboard"
  const SchoolTitlePrefix := "School Portal: "
  const NoSchoolAssigned := "No School Assigned"

  /** The re-check at the top of `admin_dashboard`. */
  predicate PassesCentralGuard(u: User) { u.roles.admin || u.roles.secretary }

  /** The re-check at the top of `school_head_dashboard`. */
  predicate PassesSchoolGuard(u: User) { u.roles.head }

  /** `admin_dashboard`: users failing the guard go back to the selector; the others
      see every document, active or not and from any school, newest first. */
  function AdminDashboard(u: User, docs: seq<Document>): (r: Response)
    ensures !PassesCentralGuard(u) ==> r == Redirect(Selector)
    ensures PassesCentralGuard(u) ==> r.Render? && r.page.CentralPage? && r.page.title == CentralTitle
    ensures r.Render? ==> NewestFirst(r.page.memos) && multiset(r.page.memos) == multiset(docs)
  {
    if !PassesCentralGuard(u) then Redirect(Selector)
    else Render(CentralPage(CentralTitle, OrderNewestFirst(docs)))
  }

  /** The school dashboard title: the prefix, then the school's name or a placeholder. */
  function SchoolPortalTitle(u: User): (title: string)
    ensures |title| >= |SchoolTitlePrefix| && title[..|SchoolTitlePrefix|] == SchoolTitlePrefix
    ensures u.school.Some? ==> title[|SchoolTitlePrefix|..] == u.school.value.name
    ensures u.school.None? ==> title[|SchoolTitlePrefix|..] == NoSchoolAssigned
  {
    var schoolName := match u.school
      case Some(s) => s.name
      case None => NoSchoolAssigned;
    SchoolTitlePrefix + schoolName
  }

  /** The title tells schools apart by name, but a school literally named like the
      placeholder cannot be told apart from having no school. */
  lemma SchoolTitleDistinguishesNames(u: User, v: User)
    requires u.school.Some? && v.school.Some?
    ensures SchoolPortalTitle(u) == SchoolPortalTitle(v) <==> u.school.value.name == v.school.value.name
    ensures u.school.value.name == NoSchoolAssigned ==> SchoolPortalTitle(u) == SchoolPortalTitle(u.(school := None))
  {
    var a, b := SchoolPortalTitle(u), SchoolPortalTitle(v);
    if a == b {
      assert a[|SchoolTitlePrefix|..] == b[|SchoolTitlePrefix|..];
    }
  }

  /** `school_head_dashboard`: users failing the guard go back to the selector; the others
      see every document newest first, under the school title. */
  function SchoolHeadDashboard(u: User, docs: seq<Document>): (r: Response)
    ensures !PassesSchoolGuard(u) ==> r == Redirect(Selector)
    ensures PassesSchoolGuard(u) ==> r.Render? && r.page.SchoolPage? && r.page.title == SchoolPortalTitle(u)
    ensures r.Render? ==> NewestFirst(r.page.memos) && multiset(r.page.memos) == multiset(docs)
  {
    if !PassesSchoolGuard(u) then Redirect(Selector)
    else Render(SchoolPage(SchoolPortalTitle(u), OrderNewestFirst(docs)))
  }

  /** A GET request to a route by a signed-in user. The profile page has no role guard. */
  function Visit(u: User, t: Target, docs: seq<Document>): Response
  {
    match t
    case Selector => Redirect(DashboardSelector(u))
    case CentralDashboard => AdminDashboard(u, docs)
    case SchoolDashboard => SchoolHeadDashboard(u, docs)
    case EmployeeProfile => Render(ProfilePage(u))
  }

  /** Follows at most `hops` redirects starting from `t`. */
  function Settle(u: User, t: Target, docs: seq<Document>, hops: nat): Response
    decreases hops
  {
    var r := Visit(u, t, docs);
    if hops == 0 || r.Render? then r else Settle(u, r.to, docs, hops - 1)
  }

  /** The selector never sends a user to a dashboard whose guard turns them away. */
  lemma SelectorTargetPassesGuard(u: User, docs: seq<Document>)
    ensures DashboardSelector(u) == CentralDashboard ==> AdminDashboard(u, docs).Render?
    ensures DashboardSelector(u) == SchoolDashboard ==> SchoolHeadDashboard(u, docs).Render?
    ensures Visit(u, DashboardSelector(u), docs).Render?
  {
  }

  /** No redirect loop: from any route, at most two redirects reach a rendered page. */
  lemma NoRedirectLoop(u: User, t: Target, docs: seq<Document>)
    ensures Settle(u, t, docs, 2).Render?
  {
    var r := Visit(u, t, docs);
    if r.Redirect? {
      assert r.to == Selector || t == Selector;
      SelectorTargetPassesGuard(u, docs);
      if t != Selector {
        assert Settle(u, Selector, docs, 1) == Visit(u, DashboardSelector(u), docs);
      }
    }
  }

  /** Signing in lands on the page that matches the resolved role. */
  lemma SelectorLandsOnRolePage(u: User, docs: seq<Document>)
    ensures var p := Settle(u, Selector, docs, 1);
            p.Render? &&
            (p.page.CentralPage? <==> RoleOf(u.roles) == Superadmin || RoleOf(u.roles) == DepEdSecretary) &&
            (p.page.SchoolPage? <==> RoleOf(u.roles) == SchoolHead) &&
            (p.page.ProfilePage? <==> RoleOf(u.roles) == Employee)
  {
    SelectorTargetPassesGuard(u, docs);
  }

  /** For a saved (normalised) user the school guard admits exactly the users the
      selector sends there. */
  lemma SchoolGuardExactAfterSave(u: User)
    ensures PassesSchoolGuard(SaveUser(u)) <==> DashboardSelector(SaveUser(u)) == SchoolDashboard
    ensures PassesCentralGuard(SaveUser(u)) <==> DashboardSelector(SaveUser(u)) == CentralDashboard
  {
    assert Holds(SaveUser(u).roles, SchoolHead) <==> Holds(u.roles, SchoolHead) && SchoolHead == RoleOf(u.roles);
  }

  /** Without normalisation the school guard is looser than the selector: an unsaved
      record carrying both the admin and the head flag is let into the school dashboard
      although the selector would send it to the central one. */
  lemma SchoolGuardLooserBeforeSave(u: User, docs: seq<Document>)
    requires u.roles == RoleFlags(true, false, true, false)
    ensures DashboardSelector(u) == CentralDashboard
    ensures SchoolHeadDashboard(u, docs).Render?
  {
  }
}

=== FILE: emails.dfy ===
/** `normalize_email`, the second of the two steps the user model's `clean` applies to
    the e-mail while a form validates: the address is split at its last '@' and the
    domain is lower-cased. The first step, the NFKC normalisation in
    `AbstractBaseUser.clean`, is not part of this model. */
module Emails {
  import opened Types
  import opened Text

  /** The position of the last occurrence of `c` in `s`, if any. */
  function LastIndexOf(s: string, c: char): (k: Option<nat>)
    ensures k.None? <==> c !in s
    ensures k.Some? ==> k.value < |s| && s[k.value] == c && forall j :: k.value < j < |s| ==> s[j] != c
  {
    if s == [] then None
    else if s[|s| - 1] == c then Some(|s| - 1)
    else LastIndexOf(s[..|s| - 1], c)
  }

  /** `normalize_email`, applied after the NFKC step of `clean`, which is not modelled:
      split the stripped address at its last '@' and lower-case the
      domain; an address without '@' is returned as given. */
  function NormalizeEmail(e: string): (r: string)
    ensures '@' !in Strip(e) ==> r == e
    ensures '@' in Strip(e) ==> |r| == |Strip(e)| && '@' in r
  {
    var t := Strip(e);
    var at := LastIndexOf(t, '@');
    if at.None? then e
    else
      var r := t[..at.value] + "@" + Lower(t[at.value + 1..]);
      assert r[at.value] == '@';
      r
  }

  /** With an '@', normalisation keeps the local part and the last '@', and the domain
      changes only in letter case and has no upper-case letter left. */
  lemma NormalizeEmailShape(e: string)
    ensures var t := Strip(e); var r := NormalizeEmail(e);
            '@' in t ==>
              var k := LastIndexOf(t, '@').value;
              && |r| == |t| && r[..k + 1] == t[..k + 1]
              && forall j :: k < j < |r| ==> r[j] != '@' && !IsUpperLetter(r[j]) && UpperChar(r[j]) == UpperChar(t[j])
  {
    var t := Strip(e);
    if '@' in t {
      var k := LastIndexOf(t, '@').value;
      NormalizeEmailAt(e, k);
      LowerDomainShape(t, k);
    }
  }

  /** Re-joining an address at position `k` of its '@' with the domain lower-cased keeps
      the local part and the '@', and changes the domain only in letter case. */
  lemma LowerDomainShape(t: string, k: nat)
    requires k < |t| && t[k] == '@' && forall j :: k < j < |t| ==> t[j] != '@'
    ensures var r := t[..k] + "@" + Lower(t[k + 1..]);
            && |r| == |t| && r[..k + 1] == t[..k + 1]
            && forall j :: k < j < |r| ==> r[j] != '@' && !IsUpperLetter(r[j]) && UpperChar(r[j]) == UpperChar(t[j])
  {
    var d := t[k + 1..];
    var r := t[..k] + "@" + Lower(d);
    assert r[..k + 1] == t[..k + 1];
    assert r[k + 1..] == Lower(d);
    forall j | k < j < |r|
      ensures r[j] != '@' && !IsUpperLetter(r[j]) && UpperChar(r[j]) == UpperChar(t[j])
    {
      assert r[j] == Lower(d)[j - k - 1] == LowerChar(d[j - k - 1]);
      assert d[j - k - 1] == t[j];
      UpperOfLower(t[j]);
    }
  }

  /** Normalisation only changes letter case, so the stored address still matches the
      typed one in a case-insensitive lookup. */
  lemma NormalizeEmailIgnoresCase(e: string)
    ensures SameIgnoringCase(NormalizeEmail(Strip(e)), Strip(e))
  {
    var t := Strip(e);
    StripIdempotent(e);
    var r := NormalizeEmail(t);
    NormalizeEmailShape(t);
    if '@' in t {
      var k := LastIndexOf(t, '@').value;
      forall i | 0 <= i < |r|
        ensures UpperChar(r[i]) == UpperChar(t[i])
      {
        if i <= k {
          assert r[i] == r[..k + 1][i] == t[..k + 1][i];
        }
      }
    }
    SameIgnoringCaseCharwise(r, t);
  }

  /** The last '@' is the only one in the remainder of the string. */
  lemma LastIndexOfIsUnique(r: string, k: nat)
    requires k < |r| && r[k] == '@' && forall j :: k < j < |r| ==> r[j] != '@'
    ensures LastIndexOf(r, '@') == Some(k)
  {
  }

  /** A normalised address that contains '@' has no surrounding whitespace. */
  lemma NormalizedIsStripped(e: string)
    requires '@' in Strip(e)
    ensures Strip(NormalizeEmail(e)) == NormalizeEmail(e)
  {
    NormalizedHasCleanEnds(e);
    StripKeepsCleanEnds(NormalizeEmail(e));
  }

  /** A normalised address that contains '@' neither starts nor ends with whitespace. */
  lemma NormalizedHasCleanEnds(e: string)
    requires '@' in Strip(e)
    ensures HasCleanEnds(NormalizeEmail(e))
  {
    var t := Strip(e);
    assert HasCleanEnds(t);
    var k := LastIndexOf(t, '@').value;
    var r := NormalizeEmail(e);
    assert r == t[..k] + "@" + Lower(t[k + 1..]) by {
      NormalizeEmailAt(e, k);
    }
    JoinHasCleanEnds(t, k, r);
  }

  /** Re-joining a stripped string at its last '@' with the domain lower-cased keeps both
      ends free of whitespace. */
  lemma JoinHasCleanEnds(t: string, k: nat, r: string)
    requires LastIndexOf(t, '@') == Some(k)
    requires HasCleanEnds(t)
    requires r == t[..k] + "@" + Lower(t[k + 1..])
    ensures HasCleanEnds(r)
  {
    JoinStartsClean(t, k, r);
    JoinEndsClean(t, k, r);
  }

  /** Re-joining at an '@' keeps the first character of a string that starts with a
      non-blank. */
  lemma JoinStartsClean(t: string, k: nat, r: string)
    requires LastIndexOf(t, '@') == Some(k)
    requires t == [] || !IsSpace(t[0])
    requires r == t[..k] + "@" + Lower(t[k + 1..])
    ensures r != [] && !IsSpace(r[0])
  {
    if k > 0 {
      assert r[0] == t[..k][0];
    }
  }

  /** Re-joining at the last '@' keeps a non-blank last character non-blank: the domain
      changes only in letter case. */
  lemma JoinEndsClean(t: string, k: nat, r: string)
    requires LastIndexOf(t, '@') == Some(k)
    requires t == [] || !IsSpace(t[|t| - 1])
    requires r == t[..k] + "@" + Lower(t[k + 1..])
    ensures r != [] && !IsSpace(r[|r| - 1])
  {
    var d := t[k + 1..];
    if d == [] {
      assert r[|r| - 1] == '@';
    } else {
      assert r[|r| - 1] == Lower(d)[|d| - 1] == LowerChar(d[|d| - 1]);
      assert d[|d| - 1] == t[|t| - 1];
    }
  }

  /** `NormalizeEmail` at a known last '@'. */
  lemma NormalizeEmailAt(e: string, k: nat)
    requires LastIndexOf(Strip(e), '@') == Some(k)
    ensures NormalizeEmail(e) == Strip(e)[..k] + "@" + Lower(Strip(e)[k + 1..])
  {
  }

  /** Normalisation keeps the position of the last '@'. */
  lemma NormalizedKeepsLastAt(e: string, k: nat)
    requires LastIndexOf(Strip(e), '@') == Some(k)
    ensures LastIndexOf(NormalizeEmail(e), '@') == Some(k)
  {
    var r := NormalizeEmail(e);
    NormalizeEmailShape(e);
    assert r[k] == r[..k + 1][k];
    LastIndexOfIsUnique(r, k);
  }

  /** After normalisation the domain is already lower case, so lower-casing it again
      gives back the same address. */
  lemma NormalizedDomainIsLower(e: string, k: nat)
    requires LastIndexOf(Strip(e), '@') == Some(k)
    ensures var r := NormalizeEmail(e); k < |r| && r[..k] + "@" + Lower(r[k + 1..]) == r
  {
    var r := NormalizeEmail(e);
    NormalizeEmailShape(e);
    assert r[k] == r[..k + 1][k];
    RejoinLowerDomain(r, k);
  }

  /** Splitting at an '@' and re-joining with an already lower-case domain gives back the
      same string. */
  lemma RejoinLowerDomain(x: string, k: nat)
    requires k < |x| && x[k] == '@'
    requires forall j :: k < j < |x| ==> !IsUpperLetter(x[j])
    ensures x[..k] + "@" + Lower(x[k + 1..]) == x
  {
    var d := x[k + 1..];
    assert forall j :: 0 <= j < |d| ==> d[j] == x[k + 1 + j];
    LowerKeepsLowered(d);
    assert x[..k] + "@" + d == x;
  }

  /** Normalising an already normalised address changes nothing, so validating the
      stored user again keeps its e-mail. */
  lemma NormalizeEmailIdempotent(e: string)
    ensures NormalizeEmail(NormalizeEmail(e)) == NormalizeEmail(e)
  {
    if '@' in Strip(e) {
      var k := LastIndexOf(Strip(e), '@').value;
      NormalizedIsStripped(e);
      NormalizedKeepsLastAt(e, k);
      NormalizedDomainIsLower(e, k);
      NormalizeEmailAt(NormalizeEmail(e), k);
    }
  }
}

=== FILE: profile.dfy ===
/** The profile form of `employee_profile`: a POST overwrites five personal fields and
    re-saves the user. */
module Profile {
  import opened Types
  import opened Accounts
  import Validators

  /** The personal columns the profile form writes are `NOT NULL` in the database:
      a record with any of them set to `None` cannot be stored. */
  predicate Storable(u: User)
  {
    u.firstName.Some? && u.lastName.Some? && u.position.Some? && u.contactNumber.Some? && u.address.Some?
  }

  /** The POST as written: each of the five keys is read with `.get`, so an absent key
      writes `None`; then `User.save` runs. The contact number is not validated here. */
  function ProfilePostAsWritten(u: User, post: map<string, string>): (r: User)
    ensures r.firstName == Lookup(post, "first_name")
    ensures r.lastName == Lookup(post, "last_name")
    ensures r.contactNumber == Lookup(post, "contact")
    ensures r.address == Lookup(post, "address")
    ensures r.position == Lookup(post, "position")
    ensures r.roles == Normalize(u.roles)
    ensures r.username == if u.username == "" && u.email != "" then u.email else u.username
    ensures r.(firstName := u.firstName, lastName := u.lastName, contactNumber := u.contactNumber,
               address := u.address, position := u.position, username := u.username, roles := u.roles) == u
  {
    SaveUser(u.(firstName := Lookup(post, "first_name"),
                lastName := Lookup(post, "last_name"),
                contactNumber := Lookup(post, "contact"),
                address := Lookup(post, "address"),
                position := Lookup(post, "position")))
  }

  /** The as-written update discards any stored value whose key is missing from the POST,
      and the resulting record violates the columns' `NOT NULL` constraint. */
  lemma MissingKeyBreaksSave(u: User, post: map<string, string>)
    requires Storable(u)
    requires "address" !in post
    ensures ProfilePostAsWritten(u, post).address == None
    ensures !Storable(ProfilePostAsWritten(u, post))
  {
  }

  /** A field of the profile form, preserved when its key is absent. */
  function FieldOrKeep(post: map<string, string>, key: string, current: Option<string>): (v: Option<string>)
    ensures key in post ==> v == Some(post[key])
    ensures key !in post ==> v == current
  {
    if key in post then Some(post[key]) else current
  }

  /** The update with "absent means unchanged": a provided key replaces the stored value
      (an explicit empty string clears it); an absent key keeps it. */
  function UpdateProfile(u: User, post: map<string, string>): (r: User)
    ensures Storable(u) ==> Storable(r)
    ensures r.firstName == FieldOrKeep(post, "first_name", u.firstName)
    ensures r.lastName == FieldOrKeep(post, "last_name", u.lastName)
    ensures r.contactNumber == FieldOrKeep(post, "contact", u.contactNumber)
    ensures r.address == FieldOrKeep(post, "address", u.address)
    ensures r.position == FieldOrKeep(post, "position", u.position)
    ensures r.roles == Normalize(u.roles)
    ensures r.username == if u.username == "" && u.email != "" then u.email else u.username
    ensures r.(firstName := u.firstName, lastName := u.lastName, contactNumber := u.contactNumber,
               address := u.address, position := u.position, username := u.username, roles := u.roles) == u
  {
    SaveUser(u.(firstName := FieldOrKeep(post, "first_name", u.firstName),
                lastName := FieldOrKeep(post, "last_name", u.lastName),
                contactNumber := FieldOrKeep(post, "contact", u.contactNumber),
                address := FieldOrKeep(post, "address", u.address),
                position := FieldOrKeep(post, "position", u.position)))
  }

  /** When the POST carries all five keys, both versions agree. */
  lemma UpdateProfileAgreesOnFullForm(u: User, post: map<string, string>)
    requires "first_name" in post && "last_name" in post && "contact" in post
    requires "address" in post && "position" in post
    ensures UpdateProfile(u, post) == ProfilePostAsWritten(u, post)
  {
  }

  /** The view stores whatever contact text is posted: `save` does not run the field's
      validator, so a number the validator rejects ends up on the record. */
  lemma ProfileStoresUncheckedContact(u: User)
    ensures var post := map["first_name" := "Ana", "last_name" := "Cruz", "contact" := "12345",
                            "address" := "", "position" := "Teacher I"];
            var r := ProfilePostAsWritten(u, post);
            r.contactNumber == Some("12345") && !Validators.ContactFieldValid(r.contactNumber.value)
  {
    assert !Validators.ContactNumberValid("12345");
  }
}

=== FILE: registration.dfy ===
/** Self-registration of employees: cleaning of the posted form, the duplicate e-mail
    check against the stored users, the password confirmation, and the save that fixes
    the new account's role. */
module Registration {
  import opened Types
  import opened Text
  import opened Accounts
  import opened Emails
  import Dashboards

  datatype Field = EmailField | FullNameField | SchoolField | GenderField | Password1Field | Password2Field

  datatype Problem = Required | InvalidEmail | DuplicateEmail | TooLong | NullCharacter | InvalidChoice | PasswordMismatch

  datatype FieldError = FieldError(field: Field, problem: Problem)

  /** The result of cleaning one field. */
  datatype Cleaned<T> = Clean(value: T) | Rejected(problem: Problem)

  /** The raw POST, one entry per form field; `None` when the key is absent. The school
      choice arrives as the primary key of the chosen school. */
  datatype RegistrationPost = RegistrationPost(
    email: Option<string>,
    fullName: Option<string>,
    gender: Option<string>,
    school: Option<nat>,
    password1: Option<string>,
    password2: Option<string>)

  /** The cleaned data of a valid form. */
  datatype RegistrationData = RegistrationData(email: string, fullName: string, gender: Gender, school: School)

  datatype Validation = Valid(data: RegistrationData) | Invalid(errors: seq<FieldError>)

  datatype Submission = Accepted(user: User) | Refused(errors: seq<FieldError>)

  const FullNameMaxLength := 255

  // ---------------------------------------------------------------------------
  // The user store and the duplicate e-mail check

  /** Some stored user has this e-mail, ignoring case (`email__iexact`). */
  predicate EmailInUse(users: seq<User>, email: string)
  {
    exists i :: 0 <= i < |users| && SameIgnoringCase(users[i].email, email)
  }

  /** The store query `User.objects.filter(email__iexact=email).exists()`, as a scan. */
  method EmailRegistered(users: seq<User>, email: string) returns (taken: bool)
    ensures taken <==> EmailInUse(users, email)
  {
    var key := Upper(email);
    taken := false;
    var i := 0;
    while i < |users|
      invariant 0 <= i <= |users|
      invariant taken <==> exists j :: 0 <= j < i && SameIgnoringCase(users[j].email, email)
    {
      if Upper(users[i].email) == key {
        taken := true;
      }
      i := i + 1;
    }
  }

  /** `clean_email`: refuses an address some stored user already has, in any case. */
  function CleanEmail(users: seq<User>, email: string): (c: Cleaned<string>)
    ensures c.Rejected? <==> EmailInUse(users, email)
    ensures c.Rejected? ==> c.problem == DuplicateEmail
    ensures c.Clean? ==> c.value == email
  {
    if EmailInUse(users, email) then Rejected(DuplicateEmail) else Clean(email)
  }

  /** An address differing from a stored one only in letter case is a duplicate. */
  lemma CaseVariantIsDuplicate(users: seq<User>, i: nat, email: string)
    requires i < |users|
    requires |email| == |users[i].email|
    requires forall k :: 0 <= k < |email| ==> UpperChar(email[k]) == UpperChar(users[i].email[k])
    ensures CleanEmail(users, email) == Rejected(DuplicateEmail)
  {
    SameIgnoringCaseCharwise(users[i].email, email);
  }

  // ---------------------------------------------------------------------------
  // Field cleaning

  /** The e-mail field: stripped, required, syntax-checked, free of NUL characters,
      then `clean_email`. */
  function CleanEmailField(users: seq<User>, raw: Option<string>, wellFormed: string -> bool): (c: Cleaned<string>)
    ensures var s := Strip(raw.OrElse(""));
            c.Clean? <==> s != "" && wellFormed(s) && '\0' !in s && !EmailInUse(users, s)
    ensures c.Clean? ==> c.value == Strip(raw.OrElse(""))
    ensures c == Rejected(Required) <==> Strip(raw.OrElse("")) == ""
    ensures c == Rejected(InvalidEmail) <==> var s := Strip(raw.OrElse("")); s != "" && !wellFormed(s)
    ensures c == Rejected(DuplicateEmail) <==>
              var s := Strip(raw.OrElse("")); s != "" && wellFormed(s) && '\0' !in s && EmailInUse(users, s)
  {
    var s := Strip(raw.OrElse(""));
    if s == "" then Rejected(Required)
    else if !wellFormed(s) then Rejected(InvalidEmail)
    else if '\0' in s then Rejected(NullCharacter)
    else CleanEmail(users, s)
  }

  /** The full name: stripped, required, at most 255 characters, no NUL character. */
  function CleanFullName(raw: Option<string>): (c: Cleaned<string>)
    ensures c.Clean? <==> var s := Strip(raw.OrElse("")); s != "" && |s| <= FullNameMaxLength && '\0' !in s
    ensures c.Clean? ==> c.value == Strip(raw.OrElse(""))
    ensures c == Rejected(Required) <==> Strip(raw.OrElse("")) == ""
    ensures c == Rejected(TooLong) <==> |Strip(raw.OrElse(""))| > FullNameMaxLength
    ensures c == Rejected(NullCharacter) <==>
              var s := Strip(raw.OrElse("")); s != "" && |s| <= FullNameMaxLength && '\0' in s
  {
    var s := Strip(raw.OrElse(""));
    if s == "" then Rejected(Required)
    else if |s| > FullNameMaxLength then Rejected(TooLong)
    else if '\0' in s then Rejected(NullCharacter)
    else Clean(s)
  }

  /** The gender choice: required, and only "Male" or "Female". */
  function CleanGender(raw: Option<string>): (c: Cleaned<Gender>)
    ensures c.Clean? <==> raw == Some("Male") || raw == Some("Female")
    ensures c.Clean? ==> GenderLabel(c.value) == raw.value
    ensures c == Rejected(Required) <==> raw.OrElse("") == ""
    ensures c == Rejected(InvalidChoice) <==> raw.OrElse("") !in {"", "Male", "Female"}
  {
    var s := raw.OrElse("");
    if s == "" then Rejected(Required)
    else match ParseGender(s)
      case Some(g) => Clean(g)
      case None => Rejected(InvalidChoice)
  }

  /** The stored school with this primary key, if any. */
  function FindSchool(schools: seq<School>, pk: nat): (r: Option<School>)
    ensures r.Some? <==> exists i :: 0 <= i < |schools| && schools[i].pk == pk
    ensures r.Some? ==> r.value in schools && r.value.pk == pk
  {
    if schools == [] then None
    else if schools[0].pk == pk then Some(schools[0])
    else FindSchool(schools[1..], pk)
  }

  /** The school choice: required, and it must name a stored school (active or not). */
  function CleanSchool(schools: seq<School>, raw: Option<nat>): (c: Cleaned<School>)
    ensures c.Clean? <==> raw.Some? && exists i :: 0 <= i < |schools| && schools[i].pk == raw.value
    ensures c.Clean? ==> c.value in schools && c.value.pk == raw.value
    ensures c == Rejected(Required) <==> raw.None?
    ensures c == Rejected(InvalidChoice) <==> raw.Some? && forall i :: 0 <= i < |schools| ==> schools[i].pk != raw.value
  {
    match raw
    case None => Rejected(Required)
    case Some(pk) =>
      match FindSchool(schools, pk)
      case Some(s) => Clean(s)
      case None => Rejected(InvalidChoice)
  }

  /** A password field: required, never stripped, no NUL character. */
  function CleanPassword(raw: Option<string>): (c: Cleaned<string>)
    ensures c.Clean? <==> raw.Some? && raw.value != "" && '\0' !in raw.value
    ensures c.Clean? ==> c.value == raw.value
    ensures c == Rejected(Required) <==> raw.OrElse("") == ""
  {
    match raw
    case None => Rejected(Required)
    case Some(p) =>
      if p == "" then Rejected(Required)
      else if '\0' in p then Rejected(NullCharacter)
      else Clean(p)
  }

  /** `clean_password2`: a mismatch is reported only when both passwords are present,
      non-empty and different; otherwise the confirmation is returned. */
  function CleanPassword2(password1: Option<string>, password2: Option<string>): (c: Cleaned<Option<string>>)
    ensures c.Rejected? <==> password1.Some? && password2.Some? && password1.value != "" && password2.value != "" && password1.value != password2.value
    ensures c.Rejected? ==> c.problem == PasswordMismatch
    ensures c.Clean? ==> c.value == password2
  {
    if password1.Some? && password2.Some? && password1.value != "" && password2.value != "" && password1.value != password2.value
    then Rejected(PasswordMismatch)
    else Clean(password2)
  }

  function ErrorsOf<T>(field: Field, c: Cleaned<T>): (e: seq<FieldError>)
    ensures c.Clean? <==> e == []
    ensures c.Rejected? ==> e == [FieldError(field, c.problem)]
  {
    match c
    case Clean(_) => []
    case Rejected(p) => [FieldError(field, p)]
  }

  /** The cleaned value of the first password, as `cleaned_data.get('password1')` sees it. */
  function CleanedPassword1(post: RegistrationPost): Option<string>
  {
    match CleanPassword(post.password1)
    case Clean(p) => Some(p)
    case Rejected(_) => None
  }

  /** The confirmation field: its own required check, then `clean_password2`. */
  function CleanConfirmation(post: RegistrationPost): Cleaned<Option<string>>
  {
    match CleanPassword(post.password2)
    case Clean(p2) => CleanPassword2(CleanedPassword1(post), Some(p2))
    case Rejected(problem) => Rejected(problem)
  }

  /** The form's error list from the six field results, in the order of `Meta.fields`;
      each field reports at most its own error. */
  function Collect(email: Cleaned<string>, name: Cleaned<string>, gender: Cleaned<Gender>,
                   school: Cleaned<School>, p1: Cleaned<string>, p2: Cleaned<Option<string>>): (e: seq<FieldError>)
    ensures e == [] <==> email.Clean? && name.Clean? && gender.Clean? && school.Clean? && p1.Clean? && p2.Clean?
    ensures forall q :: FieldError(EmailField, q) in e <==> email == Rejected(q)
    ensures forall q :: FieldError(Password2Field, q) in e <==> p2 == Rejected(q)
  {
    var front := ErrorsOf(FullNameField, name) + ErrorsOf(SchoolField, school) + ErrorsOf(GenderField, gender)
                 + ErrorsOf(Password1Field, p1);
    assert forall q :: FieldError(EmailField, q) !in front && FieldError(Password2Field, q) !in front;
    ErrorsOf(EmailField, email) + (front + ErrorsOf(Password2Field, p2))
  }

  /** Every field's failure, in the order of `Meta.fields`. */
  function AllErrors(users: seq<User>, schools: seq<School>, post: RegistrationPost, wellFormed: string -> bool): seq<FieldError>
  {
    Collect(CleanEmailField(users, post.email, wellFormed), CleanFullName(post.fullName), CleanGender(post.gender),
            CleanSchool(schools, post.school), CleanPassword(post.password1), CleanConfirmation(post))
  }

  /** `form.is_valid()`: every field is cleaned and every failure is reported. */
  function Validate(users: seq<User>, schools: seq<School>, post: RegistrationPost, wellFormed: string -> bool): (v: Validation)
    ensures v.Invalid? <==> AllErrors(users, schools, post, wellFormed) != []
    ensures v.Invalid? ==> v.errors == AllErrors(users, schools, post, wellFormed)
  {
    var errors := AllErrors(users, schools, post, wellFormed);
    if errors == [] then
      Valid(RegistrationData(
        CleanEmailField(users, post.email, wellFormed).value,
        CleanFullName(post.fullName).value,
        CleanGender(post.gender).value,
        CleanSchool(schools, post.school).value))
    else
      Invalid(errors)
  }

  /** What a valid form guarantees about the posted fields. */
  lemma ValidFormGuarantees(users: seq<User>, schools: seq<School>, post: RegistrationPost, wellFormed: string -> bool)
    ensures var v := Validate(users, schools, post, wellFormed);
            v.Valid? ==>
            var d := v.data;
            && d.email == Strip(post.email.OrElse("")) && d.email != "" && wellFormed(d.email)
            && !EmailInUse(users, d.email)
            && d.fullName == Strip(post.fullName.OrElse("")) && d.fullName != ""
            && Some(GenderLabel(d.gender)) == post.gender
            && post.school == Some(d.school.pk) && d.school in schools
            && post.password1.Some? && post.password1 == post.password2 && post.password1.value != ""
  {
  }

  /** The converse: a POST whose six fields each pass their own checks, with equal
      passwords, is a valid form. */
  lemma ValidFormExactly(users: seq<User>, schools: seq<School>, post: RegistrationPost, wellFormed: string -> bool)
    ensures Validate(users, schools, post, wellFormed).Valid? <==>
              var s := Strip(post.email.OrElse(""));
              var n := Strip(post.fullName.OrElse(""));
              && s != "" && wellFormed(s) && '\0' !in s && !EmailInUse(users, s)
              && n != "" && |n| <= FullNameMaxLength && '\0' !in n
              && (post.gender == Some("Male") || post.gender == Some("Female"))
              && post.school.Some? && (exists i :: 0 <= i < |schools| && schools[i].pk == post.school.value)
              && post.password1.Some? && post.password1.value != "" && '\0' !in post.password1.value
              && post.password2 == post.password1
  {
  }

  /** The duplicate-address error appears exactly when a non-empty, well-formed address
      without NUL characters is already in use. */
  lemma DuplicateReportedIffInUse(users: seq<User>, schools: seq<School>, post: RegistrationPost, wellFormed: string -> bool)
    ensures var v := Validate(users, schools, post, wellFormed);
            var s := Strip(post.email.OrElse(""));
            (v.Invalid? && FieldError(EmailField, DuplicateEmail) in v.errors) <==>
              s != "" && wellFormed(s) && '\0' !in s && EmailInUse(users, s)
  {
  }

  /** The mismatch error appears exactly when both passwords pass their own field checks
      (given, non-empty, no NUL character) and differ. */
  lemma MismatchReportedIffDifferent(users: seq<User>, schools: seq<School>, post: RegistrationPost, wellFormed: string -> bool)
    ensures var v := Validate(users, schools, post, wellFormed);
            (v.Invalid? && FieldError(Password2Field, PasswordMismatch) in v.errors) <==>
              post.password1.Some? && post.password2.Some? && post.password1.value != "" && post.password2.value != ""
              && '\0' !in post.password1.value && '\0' !in post.password2.value
              && post.password1.value != post.password2.value
  {
  }

  // ---------------------------------------------------------------------------
  // Saving the registration

  /** `save(commit=False)` then the form's own assignments. While validating, the form
      copied the cleaned fields onto the instance (whatever flags it carries) and the user
      model's `clean` normalised the e-mail; `save` then sets the normalised e-mail as
      username and the employee-only role. */
  function RegistrationSave(instance: User, data: RegistrationData): (u: User)
    ensures u.roles == RoleFlags(false, false, false, true)
    ensures u.email == NormalizeEmail(data.email) && u.username == u.email
    ensures u.fullName == Some(data.fullName) && u.gender == Some(data.gender) && u.school == Some(data.school)
    ensures u.(email := instance.email, username := instance.username, fullName := instance.fullName,
               gender := instance.gender, school := instance.school, roles := instance.roles) == instance
  {
    var built := instance.(email := NormalizeEmail(data.email), fullName := Some(data.fullName),
                           gender := Some(data.gender), school := Some(data.school));
    built.(username := built.email,
           fullName := Some(data.fullName),
           gender := Some(data.gender),
           school := Some(data.school),
           roles := RoleFlags(false, false, false, true))
  }

  /** Registration can never elevate: whatever instance and data, the stored user is a
      plain employee, lands on the profile page, and may access only the chosen school. */
  lemma RegistrationNeverElevates(instance: User, data: RegistrationData, target: Option<nat>)
    ensures var u := SaveUser(RegistrationSave(instance, data));
            && u.roles == FlagsOf(Employee)
            && GetRole(u) == "Employee"
            && Dashboards.DashboardSelector(u) == Dashboards.EmployeeProfile
            && (HasSchoolAccess(u, target) <==> target == Some(data.school.pk))
  {
    var saved := RegistrationSave(instance, data);
    assert saved.roles == FlagsOf(Employee);
    assert SaveUser(saved).school == Some(data.school);
  }

  /** The register view: validate, then build a new user and save it. */
  function Register(users: seq<User>, schools: seq<School>, post: RegistrationPost, wellFormed: string -> bool): (s: Submission)
    ensures s.Accepted? <==> Validate(users, schools, post, wellFormed).Valid?
    ensures s.Refused? ==> s.errors == Validate(users, schools, post, wellFormed).errors
    ensures s.Accepted? ==>
              var typed := Strip(post.email.OrElse(""));
              && s.user.email == NormalizeEmail(typed) && s.user.username == s.user.email
              && SameIgnoringCase(s.user.email, typed) && !EmailInUse(users, s.user.email)
    ensures s.Accepted? ==> GetRole(s.user) == "Employee" && s.user.roles == FlagsOf(Employee)
    ensures s.Accepted? ==>
              && s.user.fullName == Some(Strip(post.fullName.OrElse("")))
              && s.user.gender.Some? && Some(GenderLabel(s.user.gender.value)) == post.gender
              && s.user.school.Some? && s.user.school.value in schools && post.school == Some(s.user.school.value.pk)
              && s.user.isActive
  {
    var v := Validate(users, schools, post, wellFormed);
    if v.Invalid? then Refused(v.errors)
    else
      ValidFormGuarantees(users, schools, post, wellFormed);
      NormalizeEmailIgnoresCase(post.email.OrElse(""));
      RegistrationNeverElevates(NewUser, v.data, None);
      Accepted(SaveUser(RegistrationSave(NewUser, v.data)))
  }

  /** The welcome message names the registrant by the (stripped, non-empty) full name
      the form cleaned. */
  lemma WelcomeUsesFullName(instance: User, data: RegistrationData)
    requires data.fullName != ""
    ensures DisplayName(SaveUser(RegistrationSave(instance, data))) == data.fullName
  {
  }

  /** Registration against the store: an accepted user is appended, a refused form
      leaves the store as it was. */
  function Enroll(users: seq<User>, schools: seq<School>, post: RegistrationPost, wellFormed: string -> bool): (r: (seq<User>, Submission))
    ensures r.1 == Register(users, schools, post, wellFormed)
    ensures r.1.Accepted? ==> r.0 == users + [r.1.user]
    ensures r.1.Refused? ==> r.0 == users
  {
    var s := Register(users, schools, post, wellFormed);
    if s.Accepted? then (users + [s.user], s) else (users, s)
  }

  /** Appending a user whose address is not yet in use leaves exactly one stored user
      with that address, in any case. */
  lemma AppendKeepsEmailUnique(users: seq<User>, u: User)
    requires !EmailInUse(users, u.email)
    ensures EmailInUse(users + [u], u.email)
    ensures forall i :: 0 <= i < |users + [u]| && SameIgnoringCase((users + [u])[i].email, u.email) ==> i == |users|
  {
    var stored := users + [u];
    assert stored[|users|] == u;
    assert forall k :: 0 <= k < |users| ==> stored[k] == users[k];
  }

  /** An accepted form had a non-empty, well-formed, NUL-free address, and the stored
      address matches it ignoring case. */
  lemma AcceptedAddressIsClean(users: seq<User>, schools: seq<School>, post: RegistrationPost, wellFormed: string -> bool)
    ensures var first := Register(users, schools, post, wellFormed);
            var typed := Strip(post.email.OrElse(""));
            first.Accepted? ==>
            typed != "" && wellFormed(typed) && '\0' !in typed && SameIgnoringCase(first.user.email, typed)
  {
    if Register(users, schools, post, wellFormed).Accepted? {
      assert CleanEmailField(users, post.email, wellFormed).Clean?;
    }
  }

  /** A form whose clean address is already stored, ignoring case, is refused as a
      duplicate. */
  lemma ResubmissionRefused(stored: seq<User>, schools: seq<School>, post: RegistrationPost, wellFormed: string -> bool)
    ensures var typed := Strip(post.email.OrElse(""));
            typed != "" && wellFormed(typed) && '\0' !in typed && EmailInUse(stored, typed) ==>
            var second := Register(stored, schools, post, wellFormed);
            second.Refused? && FieldError(EmailField, DuplicateEmail) in second.errors
  {
    DuplicateReportedIffInUse(stored, schools, post, wellFormed);
  }

  /** Submitting the same form twice: the second attempt is refused as a duplicate and the
      store keeps exactly one user with that address. */
  lemma RegisterTwiceRefused(users: seq<User>, schools: seq<School>, post: RegistrationPost, wellFormed: string -> bool)
    ensures var (stored, first) := Enroll(users, schools, post, wellFormed);
            var second := Register(stored, schools, post, wellFormed);
            first.Accepted? ==>
            && second.Refused?
            && FieldError(EmailField, DuplicateEmail) in second.errors
            && forall i :: 0 <= i < |stored| && SameIgnoringCase(stored[i].email, first.user.email) ==> i == |users|
  {
    var (stored, first) := Enroll(users, schools, post, wellFormed);
    if first.Accepted? {
      AcceptedAddressIsClean(users, schools, post, wellFormed);
      AppendKeepsEmailUnique(users, first.user);
      assert stored[|users|] == first.user;
      ResubmissionRefused(stored, schools, post, wellFormed);
    }
  }

}

=== FILE: sessions.dfy ===
/** The login decision. Credential checking itself (`authenticate`, password hashing,
    sessions) is a collaborator passed in as a function. */
module Sessions {
  import opened Types
  import opened Accounts
  import Dashboards

  datatype Method = Get | Post

  /** Looks up a user from the posted identifier and password; `None` when the
      identifier is unknown or the password wrong (the two are not told apart). */
  type Authenticator = (Option<string>, Option<string>) -> Option<User>

  /** The outcomes of the login view. */
  datatype LoginResult =
    | AlreadySignedIn               // redirect to the selector, no new session
    | SignedIn(user: User)          // session started, redirect to the selector
    | LoginForm(error: Option<string>)  // the login page, with an error message after a failed POST

  const IncorrectCredentials := "Incorrect email or password. Please try again."
  const AccountDisabled := "Account disabled. Please contact the ICT Unit."

  /** The credentials a login POST hands to `authenticate`: the `email` and `password` keys. */
  function Attempt(post: map<string, string>, authenticate: Authenticator): Option<User>
  {
    authenticate(Lookup(post, "email"), Lookup(post, "password"))
  }

  /** `login_view`. */
  function LoginView(session: Option<User>, verb: Method, post: map<string, string>, authenticate: Authenticator): (r: LoginResult)
    ensures session.Some? <==> r == AlreadySignedIn
    ensures r.SignedIn? <==> session.None? && verb == Post && Attempt(post, authenticate).Some? && Attempt(post, authenticate).value.isActive
    ensures r.SignedIn? ==> r.user.isActive && Attempt(post, authenticate) == Some(r.user)
    ensures r == LoginForm(Some(IncorrectCredentials)) <==> session.None? && verb == Post && Attempt(post, authenticate).None?
    ensures r == LoginForm(Some(AccountDisabled)) <==> session.None? && verb == Post && Attempt(post, authenticate).Some? && !Attempt(post, authenticate).value.isActive
    ensures r == LoginForm(None) <==> session.None? && verb == Get
  {
    if session.Some? then AlreadySignedIn
    else match verb
      case Get => LoginForm(None)
      case Post =>
        match Attempt(post, authenticate)
        case Some(user) =>
          if user.isActive then SignedIn(user) else LoginForm(Some(AccountDisabled))
        case None => LoginForm(Some(IncorrectCredentials))
  }

  /** Django's default authentication backend already refuses inactive accounts; with such
      a backend the "Account disabled" message is never shown, and a disabled account
      gets the generic credentials message instead. */
  lemma DisabledMessageNeedsPermissiveBackend(session: Option<User>, verb: Method, post: map<string, string>, authenticate: Authenticator)
    requires forall c, p :: authenticate(c, p).Some? ==> authenticate(c, p).value.isActive
    ensures LoginView(session, verb, post, authenticate) != LoginForm(Some(AccountDisabled))
  {
    var a := authenticate(Lookup(post, "email"), Lookup(post, "password"));
    assert a.Some? ==> a.value.isActive;
  }

  /** A successful login leads, through the selector, to the page of the user's role. */
  lemma SignInLandsOnRolePage(session: Option<User>, post: map<string, string>, authenticate: Authenticator, docs: seq<Document>)
    requires LoginView(session, Post, post, authenticate).SignedIn?
    ensures var u := LoginView(session, Post, post, authenticate).user;
            var p := Dashboards.Settle(u, Dashboards.Selector, docs, 1);
            p.Render? &&
            (p.page.CentralPage? <==> GetRole(u) == "Superadmin" || GetRole(u) == "DepEd Secretary") &&
            (p.page.SchoolPage? <==> GetRole(u) == "School Head") &&
            (p.page.ProfilePage? <==> GetRole(u) == "Employee")
  {
    var u := LoginView(session, Post, post, authenticate).user;
    Dashboards.SelectorLandsOnRolePage(u, docs);
  }
}

=== FILE: text.dfy ===
/** Character classes and the two string transformations the portal relies on:
    case-insensitive comparison (for e-mail uniqueness) and whitespace stripping
    (form fields are stripped before they are validated). */
module Text {

  predicate IsDigit(c: char) { '0' <= c <= '9' }

  predicate IsUpperLetter(c: char) { 'A' <= c <= 'Z' }

  predicate IsLowerLetter(c: char) { 'a' <= c <= 'z' }

  /** Upper-cases an ASCII letter; every other character is left alone. */
  function UpperChar(c: char): (u: char)
    ensures !IsLowerLetter(u)
    ensures IsLowerLetter(c) ==> IsUpperLetter(u)
    ensures !IsLowerLetter(c) ==> u == c
  {
    if IsLowerLetter(c) then (c as int - 32) as char else c
  }

  /** Upper-cases a whole string, character by character. */
  function Upper(s: string): (r: string)
    ensures |r| == |s|
    ensures forall i :: 0 <= i < |s| ==> r[i] == UpperChar(s[i])
  {
    if s == [] then [] else [UpperChar(s[0])] + Upper(s[1..])
  }

  /** Lower-cases an ASCII letter; every other character is left alone. */
  function LowerChar(c: char): (l: char)
    ensures !IsUpperLetter(l)
    ensures IsUpperLetter(c) ==> IsLowerLetter(l)
    ensures !IsUpperLetter(c) ==> l == c
  {
    if IsUpperLetter(c) then (c as int + 32) as char else c
  }

  /** Lower-casing a character never changes it once case is ignored. */
  lemma UpperOfLower(c: char)
    ensures UpperChar(LowerChar(c)) == UpperChar(c)
  {
  }

  /** Lower-cases a whole string, character by character. */
  function Lower(s: string): (r: string)
    ensures |r| == |s|
    ensures forall i :: 0 <= i < |s| ==> r[i] == LowerChar(s[i])
  {
    if s == [] then [] else [LowerChar(s[0])] + Lower(s[1..])
  }

  /** A string without upper-case letters is already lower case. */
  lemma LowerKeepsLowered(s: string)
    requires forall i :: 0 <= i < |s| ==> !IsUpperLetter(s[i])
    ensures Lower(s) == s
  {
  }

  /** Two strings are equal once case is ignored (the lookup `__iexact`). */
  predicate SameIgnoringCase(a: string, b: string)
  {
    Upper(a) == Upper(b)
  }

  /** Ignoring case is a character-by-character comparison of equal-length strings. */
  lemma SameIgnoringCaseCharwise(a: string, b: string)
    ensures SameIgnoringCase(a, b) <==>
              |a| == |b| && forall i :: 0 <= i < |a| ==> UpperChar(a[i]) == UpperChar(b[i])
  {
    if |a| == |b| && forall i :: 0 <= i < |a| ==> UpperChar(a[i]) == UpperChar(b[i]) {
      assert forall i :: 0 <= i < |a| ==> Upper(a)[i] == Upper(b)[i];
    }
  }

  /** The ASCII characters `str.strip` removes: space, tab, LF, VT, FF, CR and the
      four separators U+001C to U+001F. */
  predicate IsSpace(c: char) { c == ' ' || 9 <= c as int <= 13 || 28 <= c as int <= 31 }

  function TrimStart(s: string): (r: string)
    ensures |r| <= |s| && r == s[|s| - |r|..]
    ensures r == [] || !IsSpace(r[0])
    ensures forall i :: 0 <= i < |s| - |r| ==> IsSpace(s[i])
  {
    if s != [] && IsSpace(s[0]) then TrimStart(s[1..]) else s
  }

  function TrimEnd(s: string): (r: string)
    ensures |r| <= |s| && r == s[..|r|]
    ensures r == [] || !IsSpace(r[|r| - 1])
    ensures forall i :: |r| <= i < |s| ==> IsSpace(s[i])
  {
    if s != [] && IsSpace(s[|s| - 1]) then TrimEnd(s[..|s| - 1]) else s
  }

  /** `str.strip()`: the input without leading and trailing whitespace. */
  function Strip(s: string): (r: string)
    ensures |r| <= |s|
    ensures r == [] || (!IsSpace(r[0]) && !IsSpace(r[|r| - 1]))
  {
    TrimEnd(TrimStart(s))
  }

  /** A non-empty string that neither starts nor ends with whitespace. */
  predicate HasCleanEnds(s: string)
  {
    s != [] && !IsSpace(s[0]) && !IsSpace(s[|s| - 1])
  }

  /** A string that neither starts nor ends with whitespace is its own strip. */
  lemma StripKeepsCleanEnds(s: string)
    requires HasCleanEnds(s)
    ensures Strip(s) == s
  {
    assert TrimStart(s) == s;
  }

  /** Stripping an already stripped string changes nothing. */
  lemma StripIdempotent(s: string)
    ensures Strip(Strip(s)) == Strip(s)
  {
    var r := Strip(s);
    assert TrimStart(r) == r;
    assert TrimEnd(r) == r;
  }
}

=== FILE: types.dfy ===
/** Small shared vocabulary: optional values (Python's `None`) and dictionary lookup. */
module Types {

  /** A value that may be absent, as a nullable column or a missing form key. */
  datatype Option<T> = None | Some(value: T) {

    /** The wrapped value, or `fallback` when there is none (Python's `x or fallback` on `None`). */
    function OrElse(fallback: T): (r: T)
      ensures Some? ==> r == value
      ensures None? ==> r == fallback
    {
      match this
      case Some(v) => v
      case None => fallback
    }
  }

  /** `d.get(k)`: the value stored under `k`, or `None` when the key is absent. */
  function Lookup<K, V>(d: map<K, V>, k: K): (r: Option<V>)
    ensures r.Some? <==> k in d
    ensures r.Some? ==> r.value == d[k]
  {
    if k in d then Some(d[k]) else None
  }
}

=== FILE: validators.dfy ===
/** The two regular-expression validators of the data model, read as whole-string matches:
    the school code pattern `^[A-Z0-9-]+$` and the Philippine mobile number pattern
    `^\+?63[0-9]{10}$`. */
module Validators {
  import opened Text

  /** One character of the class `[A-Z0-9-]`. */
  predicate IsCodeChar(c: char) { IsUpperLetter(c) || IsDigit(c) || c == '-' }

  /** `[A-Z0-9-]+` anchored at both ends, matched the way the pattern reads:
      one class character, then the rest matched again. */
  function SchoolCodeValid(code: string): (ok: bool)
    ensures ok <==> |code| > 0 && forall i :: 0 <= i < |code| ==> IsCodeChar(code[i])
  {
    |code| > 0 && IsCodeChar(code[0]) && (|code| == 1 || SchoolCodeValid(code[1..]))
  }

  /** A valid school code has no lower-case letter, as the validator's message
      ("uppercase letters, numbers, and hyphens only") says: upper-casing leaves it as it is. */
  lemma SchoolCodeIsUpperCase(code: string)
    requires SchoolCodeValid(code)
    ensures Upper(code) == code
  {
    assert forall i :: 0 <= i < |code| ==> Upper(code)[i] == code[i];
  }

  /** `[0-9]*` anchored at both ends. */
  function DigitsOnly(s: string): (ok: bool)
    ensures ok <==> forall i :: 0 <= i < |s| ==> IsDigit(s[i])
  {
    s == [] || (IsDigit(s[0]) && DigitsOnly(s[1..]))
  }

  const CountryCode := "63"
  const SubscriberLength := 10

  /** `^\+?63[0-9]{10}$`: an optional plus is consumed first, then the country code
      and exactly ten digits must make up the rest of the string. */
  function ContactNumberValid(s: string): (ok: bool)
    ensures ok ==> |s| == 12 || |s| == 13
    ensures ok ==> forall i :: 0 <= i < |s| ==> IsDigit(s[i]) || (i == 0 && s[i] == '+')
  {
    var rest := if |s| > 0 && s[0] == '+' then s[1..] else s;
    |rest| == |CountryCode| + SubscriberLength && rest[..2] == CountryCode && DigitsOnly(rest[2..])
  }

  /** The strings the pattern describes, built from their parts. */
  function PhoneNumber(plus: bool, subscriber: string): string
  {
    (if plus then "+" else "") + CountryCode + subscriber
  }

  /** The validator accepts exactly the numbers `PhoneNumber` builds from ten digits. */
  lemma ContactNumberShape(s: string)
    ensures ContactNumberValid(s) <==>
              exists plus: bool, d: string :: |d| == SubscriberLength && DigitsOnly(d) && s == PhoneNumber(plus, d)
  {
    if ContactNumberValid(s) {
      var plus := |s| > 0 && s[0] == '+';
      var rest := if plus then s[1..] else s;
      var d := rest[2..];
      assert rest == CountryCode + d;
      assert s == PhoneNumber(plus, d);
    }
    if exists plus: bool, d: string :: |d| == SubscriberLength && DigitsOnly(d) && s == PhoneNumber(plus, d) {
      var plus: bool, d: string :| |d| == SubscriberLength && DigitsOnly(d) && s == PhoneNumber(plus, d);
      var rest := if plus then s[1..] else s;
      assert rest == CountryCode + d;
      assert rest[2..] == d;
    }
  }

  /** The model field is `blank=True`: Django skips the validator for an empty value. */
  predicate ContactFieldValid(s: string)
  {
    s == [] || ContactNumberValid(s)
  }
}
